=== FILE: README.md ===
# Fitness members store

A model of the member-management core of FitnessManagerApi, a REST backend for
a fitness facility. It covers two things:

- the six actions of `MembersController`: list one page of Members, search by
  FitnessNumber fragment, get by FitnessNumber, create, replace and delete;
- the constraints the EF Core model snapshot declares for Member, Subscription
  and Workout. These are required text columns with maximum lengths, generated
  primary keys, the unique index on `FitnessNumber`, and required foreign keys
  from Subscription and Workout to Member with cascade delete.

The database is modelled as one in-memory store, `MembersController.MemberStore`.
It is a class holding three tables, each kept in insertion order (`seq<Member>`, `seq<Subscription>`,
`seq<Workout>`) and the next value of the Members identity column. Its invariant
`Valid()` is `FitnessSchema.Consistent`, every constraint of the snapshot, plus
"every Member Id is positive and below the identity counter". Every action is
one atomic step that returns a `Response`:
Ok (200), Created (201), NoContent (204), BadRequest (400), NotFound (404), or
ServerError (an exception the action does not catch).

`SaveChangesAsync` is modelled as `MemberStore.SaveChanges`. The database
commits the new tables when every constraint holds of them. Otherwise it
refuses the whole commit and nothing changes. This is the database's backstop
behind the controller's own checks.

Files:
- `sequences.dfy` (module `Sequences`): the query operators Where
  (`Filter`) and FirstOrDefault (`FirstIndex`), and `RemoveAt`.
- `schema.dfy` (module `FitnessSchema`): the entities, the column and key
  constraints, `Consistent`, and the cascade rule (`KeepUnowned`/`OwnedBy`)
  with its lemmas.
- `queries.dfy` (module `MemberQueries`): Skip/Take paging, the substring
  test behind `String.Contains`, search, and lookup by key or by Id.
- `controller.dfy` (module `MembersController`): the store class, the six
  actions, and three client methods that compose them.

Two choices the code decides:
- Replace with a body Id that matches no row: the update touches no row and
  the save throws, so the model returns ServerError, not 404.
- Paging with `pageSize = 0`: the code passes it to the database, where
  Take(0) becomes `FETCH NEXT 0 ROWS`. SQL Server refuses a FETCH count
  below 1, so the model returns ServerError, not an empty page.

## Model

| member | source | states |
|---|---|---|
| Sequences.Filter | course-work/Implementations/FitnessManagerApi/FitnessManagerApi/Controllers/MembersController.cs:34-36 | Where: an element is in the result exactly when it is in the input and satisfies the predicate; the result is never longer than the input |
| Sequences.FilterConcat | course-work/Implementations/FitnessManagerApi/FitnessManagerApi/Controllers/MembersController.cs:34-36 | Where keeps input order: filtering `a + b` gives the filtered `a` followed by the filtered `b` |
| Sequences.FirstIndex | course-work/Implementations/FitnessManagerApi/FitnessManagerApi/Controllers/MembersController.cs:44 | FirstOrDefault: the index of the first element satisfying the predicate, with none before it; None exactly when no element does |
| Sequences.RemoveAt | course-work/Implementations/FitnessManagerApi/FitnessManagerApi/Controllers/MembersController.cs:77 | removing one row leaves one row fewer; the rows before it stay where they were and the rows after it shift down by one, in order |
| FitnessSchema.Member | course-work/Implementations/FitnessManagerApi/FitnessManagerApi/Migrations/FitnessDbContextModelSnapshot.cs:25-57 | a Members row: the generated Id, BirthDate, Height, and the four text columns, each of which may be null |
| FitnessSchema.Subscription | course-work/Implementations/FitnessManagerApi/FitnessManagerApi/Migrations/FitnessDbContextModelSnapshot.cs:67-90 | a Subscriptions row: the generated Id, Description, ExpiryDate, the MemberId foreign key, Price and StartDate |
| FitnessSchema.Workout | course-work/Implementations/FitnessManagerApi/FitnessManagerApi/Migrations/FitnessDbContextModelSnapshot.cs:99-122 | a Workouts row: the generated Id, CaloriesBurned, DurationMinutes, the MemberId foreign key, Notes and WorkoutDate |
| FitnessSchema.Utf16Length | course-work/Implementations/FitnessManagerApi/FitnessManagerApi/Migrations/FitnessDbContextModelSnapshot.cs:36-57 | the length nvarchar(n) counts: one UTF-16 code unit per character up to U+FFFF and two above it, so between the number of characters and twice that |
| FitnessSchema.Utf16LengthBmp | course-work/Implementations/FitnessManagerApi/FitnessManagerApi/Migrations/FitnessDbContextModelSnapshot.cs:36-57 | text whose characters are all at most U+FFFF is exactly as many code units long as it has characters |
| FitnessSchema.Utf16LengthAstral | course-work/Implementations/FitnessManagerApi/FitnessManagerApi/Migrations/FitnessDbContextModelSnapshot.cs:36-57 | text whose characters are all above U+FFFF is twice as many code units long as it has characters |
| FitnessSchema.RequiredText | course-work/Implementations/FitnessManagerApi/FitnessManagerApi/Migrations/FitnessDbContextModelSnapshot.cs:36-39 | a required nvarchar(n) column: not null and at most n UTF-16 code units long |
| FitnessSchema.WideFirstNameRefused | course-work/Implementations/FitnessManagerApi/FitnessManagerApi/Migrations/FitnessDbContextModelSnapshot.cs:36-39 | a FirstName of 26 characters above U+FFFF has fewer than 50 characters but 52 code units, so nvarchar(50) refuses the row |
| FitnessSchema.ValidMember | course-work/Implementations/FitnessManagerApi/FitnessManagerApi/Migrations/FitnessDbContextModelSnapshot.cs:36-57 | FirstName, FitnessNumber, LastName and PhoneNumber are required, with at most 50, 10, 50 and 15 code units |
| FitnessSchema.ValidSubscription | course-work/Implementations/FitnessManagerApi/FitnessManagerApi/Migrations/FitnessDbContextModelSnapshot.cs:75-78 | Description is required, with at most 100 code units |
| FitnessSchema.ValidWorkout | course-work/Implementations/FitnessManagerApi/FitnessManagerApi/Migrations/FitnessDbContextModelSnapshot.cs:116-119 | Notes is required, with at most 200 code units |
| FitnessSchema.DistinctKeys | course-work/Implementations/FitnessManagerApi/FitnessManagerApi/Migrations/FitnessDbContextModelSnapshot.cs:59 | primary key: no two rows of a table carry the same Id |
| FitnessSchema.UniqueFitnessNumbers | course-work/Implementations/FitnessManagerApi/FitnessManagerApi/Migrations/FitnessDbContextModelSnapshot.cs:61-62 | the unique index: no two Members carry the same FitnessNumber |
| FitnessSchema.References | course-work/Implementations/FitnessManagerApi/FitnessManagerApi/Migrations/FitnessDbContextModelSnapshot.cs:131-151 | a required foreign key: every row's MemberId is the Id of an existing Member |
| FitnessSchema.Consistent | course-work/Implementations/FitnessManagerApi/FitnessManagerApi/Migrations/FitnessDbContextModelSnapshot.cs:25-151 | every constraint of the snapshot holds of the three tables: valid rows, distinct Ids in each table, unique FitnessNumber, both foreign keys |
| FitnessSchema.KeepUnowned | course-work/Implementations/FitnessManagerApi/FitnessManagerApi/Migrations/FitnessDbContextModelSnapshot.cs:131-151 | the rows a cascade delete of Member `memberId` keeps: exactly the rows whose MemberId is a different Member |
| FitnessSchema.OwnedBy | course-work/Implementations/FitnessManagerApi/FitnessManagerApi/Migrations/FitnessDbContextModelSnapshot.cs:131-151 | the rows a cascade delete of Member `memberId` removes: exactly the rows whose MemberId is that Member |
| FitnessSchema.CascadePartition | course-work/Implementations/FitnessManagerApi/FitnessManagerApi/Migrations/FitnessDbContextModelSnapshot.cs:131-151 | the kept rows and the removed rows together are the table, each row counted once: the cascade removes the dependents and nothing else |
| FitnessSchema.FilterKeepsDistinct | course-work/Implementations/FitnessManagerApi/FitnessManagerApi/Migrations/FitnessDbContextModelSnapshot.cs:92 | dropping rows from a table keeps its primary key distinct |
| FitnessSchema.KeepUnownedKeepsDistinct | course-work/Implementations/FitnessManagerApi/FitnessManagerApi/Migrations/FitnessDbContextModelSnapshot.cs:124 | the rows a cascade keeps still have pairwise distinct Ids |
| FitnessSchema.CascadeKeepsReferences | course-work/Implementations/FitnessManagerApi/FitnessManagerApi/Migrations/FitnessDbContextModelSnapshot.cs:131-151 | after a Member is removed and the cascade runs, every remaining Subscription or Workout still points at an existing Member |
| FitnessSchema.CascadeDeleteConsistent | course-work/Implementations/FitnessManagerApi/FitnessManagerApi/Migrations/FitnessDbContextModelSnapshot.cs:131-151 | removing a Member and cascading to its Subscriptions and Workouts keeps every constraint: valid rows, distinct Ids, unique FitnessNumber, no dangling foreign key |
| FitnessSchema.ReplaceKeepsReferences | course-work/Implementations/FitnessManagerApi/FitnessManagerApi/Migrations/FitnessDbContextModelSnapshot.cs:131-151 | overwriting a Member row with a row of the same Id keeps every foreign key satisfied |
| FitnessSchema.AppendKeepsReferences | course-work/Implementations/FitnessManagerApi/FitnessManagerApi/Migrations/FitnessDbContextModelSnapshot.cs:131-151 | adding a Member keeps every foreign key satisfied |
| FitnessSchema.InsertConsistent | course-work/Implementations/FitnessManagerApi/FitnessManagerApi/Migrations/FitnessDbContextModelSnapshot.cs:25-65 | for a row with a fresh Id and an unused FitnessNumber, the tables with it added are consistent exactly when it meets the Member column constraints: four required strings of at most 50, 10, 50 and 15 UTF-16 code units |
| FitnessSchema.ReplaceConsistent | course-work/Implementations/FitnessManagerApi/FitnessManagerApi/Migrations/FitnessDbContextModelSnapshot.cs:36-62 | overwriting the row with the same Id keeps the tables consistent exactly when the new row meets the column constraints and no other row holds its FitnessNumber (the unique index) |
| MemberQueries.Skip | course-work/Implementations/FitnessManagerApi/FitnessManagerApi/Controllers/MembersController.cs:25 | Skip(n) leaves the rows from position n on, in order; it is empty when n is at or past the end |
| MemberQueries.Take | course-work/Implementations/FitnessManagerApi/FitnessManagerApi/Controllers/MembersController.cs:26 | Take(n) is a prefix of the rows of length n, or all of them when there are fewer |
| MemberQueries.Page | course-work/Implementations/FitnessManagerApi/FitnessManagerApi/Controllers/MembersController.cs:22-27 | Skip((page-1)*pageSize).Take(pageSize) is the slice of the table from the offset to offset+pageSize, both cut at the end; it is empty when the offset is at or past the end and never longer than pageSize |
| MemberQueries.PagesUpToIsPrefix | course-work/Implementations/FitnessManagerApi/FitnessManagerApi/Controllers/MembersController.cs:22-27 | reading pages 1 to k in turn gives the first k*pageSize rows of the model's insertion order: over that one fixed order, paging skips no row and repeats none |
| MemberQueries.PageLocates | course-work/Implementations/FitnessManagerApi/FitnessManagerApi/Controllers/MembersController.cs:22-27 | every row i is on page i / pageSize + 1, at position i % pageSize |
| MemberQueries.PageExample | course-work/Implementations/FitnessManagerApi/FitnessManagerApi/Controllers/MembersController.cs:24-27 | page 2 of size 2 over five rows holds the third and fourth rows |
| MemberQueries.Contains | course-work/Implementations/FitnessManagerApi/FitnessManagerApi/Controllers/MembersController.cs:35 | String.Contains with ordinal comparison: the fragment is a prefix of the string or of one of its suffixes |
| MemberQueries.ContainsIffOccurs | course-work/Implementations/FitnessManagerApi/FitnessManagerApi/Controllers/MembersController.cs:35 | the Contains test holds exactly when the fragment occurs at some position of the FitnessNumber, not only at the start |
| MemberQueries.ContainsOccurrence | course-work/Implementations/FitnessManagerApi/FitnessManagerApi/Controllers/MembersController.cs:35 | an occurrence of the fragment at any position i makes the Contains test hold |
| MemberQueries.OccurrenceOf | course-work/Implementations/FitnessManagerApi/FitnessManagerApi/Controllers/MembersController.cs:35 | when the Contains test holds, it yields a position at which the fragment occurs |
| MemberQueries.MissingFirstCharacter | course-work/Implementations/FitnessManagerApi/FitnessManagerApi/Controllers/MembersController.cs:35 | a fragment whose first character does not occur in the string is not contained in it |
| MemberQueries.Search | course-work/Implementations/FitnessManagerApi/FitnessManagerApi/Controllers/MembersController.cs:34-36 | a Member is in the search result exactly when it is in the table and its FitnessNumber is not null and contains the fragment |
| MemberQueries.SearchConcat | course-work/Implementations/FitnessManagerApi/FitnessManagerApi/Controllers/MembersController.cs:34-36 | search keeps the model's row order: searching `a + b` gives the result for `a` followed by the result for `b` |
| MemberQueries.SearchExample | course-work/Implementations/FitnessManagerApi/FitnessManagerApi/Controllers/MembersController.cs:33-36 | searching "N00" over rows numbered AN0012, BN0034 and CX0099 returns the first two rows, in that order |
| MemberQueries.IndexOfKey | course-work/Implementations/FitnessManagerApi/FitnessManagerApi/Controllers/MembersController.cs:44 | the lookup finds the first row whose FitnessNumber equals the key; it finds nothing exactly when no row holds the key |
| MemberQueries.IndexOfUniqueKey | course-work/Implementations/FitnessManagerApi/FitnessManagerApi/Migrations/FitnessDbContextModelSnapshot.cs:61-62 | under the unique index, the lookup by a row's FitnessNumber finds that very row |
| MemberQueries.AppendThenFind | course-work/Implementations/FitnessManagerApi/FitnessManagerApi/Controllers/MembersController.cs:44-60 | after a row with an unused FitnessNumber is appended, the lookup by that FitnessNumber finds the new row |
| MemberQueries.RemoveThenFind | course-work/Implementations/FitnessManagerApi/FitnessManagerApi/Controllers/MembersController.cs:75-79 | under the unique index, after the row holding a key is removed, the lookup by that key finds nothing |
| MemberQueries.IndexOfId | course-work/Implementations/FitnessManagerApi/FitnessManagerApi/Controllers/MembersController.cs:67-68 | the row an update of an entity touches is the row with the entity's Id; there is none exactly when no Member has that Id |
| MembersController.Response | course-work/Implementations/FitnessManagerApi/FitnessManagerApi/Controllers/MembersController.cs:33-79 | the outcome of an action: Ok or Created with a body, NoContent, BadRequest, NotFound, or ServerError for an exception the action does not catch |
| MembersController.Response.StatusCode | course-work/Implementations/FitnessManagerApi/FitnessManagerApi/Controllers/MembersController.cs:33-79 | the HTTP status of each outcome: 200, 201, 204, 400, 404 and 500 |
| MembersController.MemberStore.Valid | course-work/Implementations/FitnessManagerApi/FitnessManagerApi/Migrations/FitnessDbContextModelSnapshot.cs:27-31 | the store invariant: every constraint of the snapshot holds (`Consistent`), and every Member Id was drawn from the identity column, so it is at least 1 and below the next identity value. This is why a created row's Id is fresh |
| MembersController.MemberStore.constructor | course-work/Implementations/FitnessManagerApi/FitnessManagerApi/Controllers/MembersController.cs:16-19 | a store opened over tables that already satisfy the constraints is valid and holds exactly those tables |
| MembersController.MemberStore.SaveChanges | course-work/Implementations/FitnessManagerApi/FitnessManagerApi/Controllers/MembersController.cs:59 | the commit succeeds exactly when the new tables satisfy every constraint; on success the tables and the identity counter are replaced, otherwise nothing changes. The store invariant is kept: the caller hands over only rows whose Ids lie below the new counter |
| MembersController.MemberStore.GetMembers | course-work/Implementations/FitnessManagerApi/FitnessManagerApi/Controllers/MembersController.cs:22-27 | 500 exactly when pageSize is 0 (the database refuses to fetch no rows); otherwise 200 with the page `Page` describes |
| MembersController.MemberStore.GetMembersByDefault | course-work/Implementations/FitnessManagerApi/FitnessManagerApi/Controllers/MembersController.cs:22-27 | a request without page or pageSize uses the defaults 1 and 10: always 200 with the first ten Members, or all of them when there are fewer |
| MembersController.IsNullOrEmpty | course-work/Implementations/FitnessManagerApi/FitnessManagerApi/Controllers/MembersController.cs:33 | String.IsNullOrEmpty: the fragment is null or has no characters |
| MembersController.MemberStore.SearchMembers | course-work/Implementations/FitnessManagerApi/FitnessManagerApi/Controllers/MembersController.cs:31-36 | 400 exactly when the fragment is null or empty, and then nothing is queried; otherwise 200 with the search result |
| MembersController.MemberStore.GetMember | course-work/Implementations/FitnessManagerApi/FitnessManagerApi/Controllers/MembersController.cs:42-46 | 404 exactly when no Member holds the key; otherwise 200 with the first Member holding it |
| MembersController.MemberStore.PostMember | course-work/Implementations/FitnessManagerApi/FitnessManagerApi/Controllers/MembersController.cs:50-60 | 400 exactly when the FitnessNumber is taken. 201 exactly when it is free, the body carries no explicit Id and the body meets the column constraints; then the row, with the next identity value as Id, is appended and returned, and the other tables stay the same. Any other outcome leaves the store unchanged. The invariant is kept either way: unique FitnessNumber, distinct Ids, valid foreign keys |
| MembersController.MemberStore.PutMember | course-work/Implementations/FitnessManagerApi/FitnessManagerApi/Controllers/MembersController.cs:64-69 | 400 exactly when the path key differs from the body's FitnessNumber. 204 exactly when the keys agree, a row has the body's Id, the body meets the column constraints and no other row holds its FitnessNumber; then that row alone is overwritten. Any other outcome leaves the store unchanged. The invariant is kept |
| MembersController.MemberStore.DeleteMember | course-work/Implementations/FitnessManagerApi/FitnessManagerApi/Controllers/MembersController.cs:73-79 | 404 exactly when no Member holds the key, and then the store is unchanged. Otherwise 204: the first Member holding the key is removed, the others keep their order, and exactly the Subscriptions and Workouts pointing at it are removed. The invariant is kept, and the delete never fails |
| MembersController.CreateThenGet | course-work/Implementations/FitnessManagerApi/FitnessManagerApi/Controllers/MembersController.cs:44-60 | after a successful create, getting the new FitnessNumber returns 200 with exactly the created row |
| MembersController.CreateTwice | course-work/Implementations/FitnessManagerApi/FitnessManagerApi/Controllers/MembersController.cs:52-60 | of two creates with the same FitnessNumber one after the other, at most one succeeds; if the first does, the second gets 400 |
| MembersController.DeleteThenGet | course-work/Implementations/FitnessManagerApi/FitnessManagerApi/Controllers/MembersController.cs:42-79 | after a delete, getting the same key returns 404 |

## Left out

- Authorization and routing attributes (`[Authorize]`, `[Route]`, `[ApiController]`, `[Http…]`) are framework wiring. Results are the `Response` datatype, not HTTP messages. The Location header of the 201 response and the text of the 400 messages are not modelled.
- Asynchronous execution and EF Core internals (change tracking, SQL translation, `ToListAsync`). Each action is one atomic state transition.
- Concurrency: two concurrent creates with the same FitnessNumber can both pass the check before either saves. The model is sequential. `CreateTwice` states only the sequential guarantee.
- Row order: none of the queries has an OrderBy, so the database returns rows in an order it is free to choose and change between requests. The model fixes one order, insertion order. `Page`, `PagesUpToIsPrefix`, `PageLocates`, the order in `Search`/`SearchConcat`, and "first" in `IndexOfKey`, `GetMember` and `DeleteMember` hold for that order only. Under the unique index at most one Member holds a key, so "first" does not matter for lookups in a valid store.
- MembersController.MemberStore.GetMembers: the defaults `page = 1, pageSize = 10` are modelled by `GetMembersByDefault`. GetMembers requires `page >= 1`, `pageSize >= 0` and an offset `(page-1)*pageSize` that fits in a 32-bit int. The code passes smaller values, and an overflowing offset, straight to the database. What the database does with them is not modelled. A page size of 0 is modelled (ServerError).
- The identity column is an unbounded counter. Its 32-bit limit, and values it consumes on failed inserts, are not modelled.
- Request binding and model validation. The Member class and its annotations are not part of this model. A body that breaks a column constraint reaches `SaveChanges`, and the refused commit shows as ServerError.
- Text lengths are counted in UTF-16 code units (`Utf16Length`), as nvarchar does. Text comparison is ordinal. The database's collation, which may compare case-insensitively and ignore trailing spaces, is not modelled. This affects the key lookup, the search and the unique index.
- The `float`, `decimal(10,2)` and `datetime2` columns are opaque payload (`real`, `DateTime(ticks)`). Nothing computes with them.
- Snapshot metadata (product version, identifier length, column type names) and the SQL Server identity-column mechanics beyond "a fresh, increasing Id per insert".
- Subscriptions and Workouts have no actions of their own in this core. The store is opened over existing tables (the constructor), and the actions only ever remove their rows, through the cascade.

=== FILE: controller.dfy ===
/** The members API: six actions on a store that holds the Members table
    together with the Subscriptions and Workouts that point at it. Each action
    is one atomic step; the result is the HTTP outcome it produces. */
module MembersController {
  import opened Sequences
  import opened FitnessSchema
  import opened MemberQueries

  /** The outcome of an action. ServerError stands for an exception the action
      does not catch: the commit was refused and nothing was saved. */
  datatype Response<T> =
    | Ok(body: T)
    | Created(body: T)
    | NoContent
    | BadRequest
    | NotFound
    | ServerError
  {
    function StatusCode(): int
    {
      match this
      case Ok(_) => 200
      case Created(_) => 201
      case NoContent => 204
      case BadRequest => 400
      case NotFound => 404
      case ServerError => 500
    }
  }

  /** The default values of GetMembers' page and pageSize arguments. */
  const DefaultPage := 1
  const DefaultPageSize := 10

  /** String.IsNullOrEmpty. */
  predicate IsNullOrEmpty(s: NString)
  {
    s.None? || s.value == []
  }

  class MemberStore {
    var members: seq<Member>
    var subscriptions: seq<Subscription>
    var workouts: seq<Workout>
    /** The next value of the Members identity column. */
    var nextId: int

    /** The database's constraints hold, and every Member Id was drawn from
        the identity column before nextId. */
    ghost predicate Valid()
      reads this
    {
      && Consistent(members, subscriptions, workouts)
      && 1 <= nextId
      && forall i :: 0 <= i < |members| ==> 1 <= members[i].id < nextId
    }

    /** A store over existing tables that already satisfy the constraints. */
    constructor (ms: seq<Member>, ss: seq<Subscription>, ws: seq<Workout>, seed: int)
      requires Consistent(ms, ss, ws)
      requires 1 <= seed && forall i :: 0 <= i < |ms| ==> 1 <= ms[i].id < seed
      ensures Valid()
      ensures members == ms && subscriptions == ss && workouts == ws && nextId == seed
    {
      members, subscriptions, workouts, nextId := ms, ss, ws, seed;
    }

    /** SaveChanges: the database commits the new tables when every constraint
        holds of them, and otherwise refuses the whole commit. */
    method SaveChanges(ms: seq<Member>, ss: seq<Subscription>, ws: seq<Workout>, next: int) returns (saved: bool)
      requires Valid()
      requires nextId <= next
      requires forall i :: 0 <= i < |ms| ==> 1 <= ms[i].id < next
      modifies this
      ensures Valid()
      ensures saved == Consistent(ms, ss, ws)
      ensures saved ==> members == ms && subscriptions == ss && workouts == ws && nextId == next
      ensures !saved ==> unchanged(this)
    {
      saved := Consistent(ms, ss, ws);
      if saved {
        members, subscriptions, workouts, nextId := ms, ss, ws, next;
      }
    }

    /** GET: one page of Members. Take(pageSize) becomes SQL Server's
        FETCH NEXT pageSize ROWS, which refuses a count of 0, so a page size
        of 0 ends in an exception; any other page size gives 200. */
    method GetMembers(page: int, pageSize: int) returns (r: Response<seq<Member>>)
      requires PageArgs(page, pageSize)
      ensures r.StatusCode() == if pageSize == 0 then 500 else 200
      ensures pageSize == 0 ==> r == ServerError
      ensures pageSize > 0 ==> r == Ok(Page(members, page, pageSize))
    {
      if pageSize == 0 {
        return ServerError;
      }
      r := Ok(Page(members, page, pageSize));
    }

    /** GET with no query string: page and pageSize take their default values,
        so the response holds the first DefaultPageSize Members. */
    method GetMembersByDefault() returns (r: Response<seq<Member>>)
      ensures r.StatusCode() == 200
      ensures r == Ok(Page(members, DefaultPage, DefaultPageSize))
      ensures r.body == members[..Min(DefaultPageSize, |members|)]
    {
      r := GetMembers(DefaultPage, DefaultPageSize);
    }

    /** GET search: 400 for a null or empty fragment, otherwise 200 with the
        Members whose FitnessNumber contains it. */
    method SearchMembers(fragment: NString) returns (r: Response<seq<Member>>)
      ensures IsNullOrEmpty(fragment) <==> r == BadRequest
      ensures r.StatusCode() == if IsNullOrEmpty(fragment) then 400 else 200
      ensures !IsNullOrEmpty(fragment) ==> r == Ok(Search(members, fragment.value))
    {
      if IsNullOrEmpty(fragment) {
        return BadRequest;
      }
      r := Ok(Search(members, fragment.value));
    }

    /** GET by key: 200 with the first Member holding the key, or 404. */
    method GetMember(key: string) returns (r: Response<Member>)
      ensures r.NotFound? <==> KeyFreeExcept(members, Some(key), -1)
      ensures r.Ok? ==> r.body in members && r.body.fitnessNumber == Some(key)
      ensures r.Ok? || r.NotFound?
      ensures r.StatusCode() == if KeyFreeExcept(members, Some(key), -1) then 404 else 200
      ensures r.Ok? ==> r.body == members[IndexOfKey(members, Some(key)).value]
    {
      match IndexOfKey(members, Some(key)) {
        case None => r := NotFound;
        case Some(i) => r := Ok(members[i]);
      }
    }

    /** POST: 400 if the FitnessNumber is already taken; otherwise the row is
        added with a fresh identity value and 201 is returned with it. */
    method PostMember(body: Member) returns (r: Response<Member>)
      requires Valid()
      modifies this
      ensures Valid()
      ensures r.Created? || r.BadRequest? || r.ServerError?
      ensures r.BadRequest? <==> !KeyFreeExcept(old(members), body.fitnessNumber, -1)
      ensures r.Created? <==> KeyFreeExcept(old(members), body.fitnessNumber, -1) && body.id == 0 && ValidMember(body)
      ensures r.Created? ==>
                && r.body == body.(id := old(nextId))
                && members == old(members) + [r.body]
                && subscriptions == old(subscriptions) && workouts == old(workouts)
                && nextId == old(nextId) + 1
      ensures !r.Created? ==> unchanged(this)
    {
      if IndexOfKey(members, body.fitnessNumber).Some? {
        return BadRequest;
      }
      if body.id != 0 {
        // an explicit value for the identity column is refused on insert
        return ServerError;
      }
      var row := body.(id := nextId);
      InsertConsistent(members, subscriptions, workouts, row);
      var saved := SaveChanges(members + [row], subscriptions, workouts, nextId + 1);
      if !saved {
        return ServerError;
      }
      r := Created(row);
    }

    /** PUT: 400 if the path key and the body's key differ; otherwise the row
        with the body's Id is overwritten by the body and 204 is returned. When
        no row has that Id, or the new row breaks a constraint, the commit is
        refused. */
    method PutMember(key: string, body: Member) returns (r: Response<()>)
      requires Valid()
      modifies this
      ensures Valid()
      ensures r.NoContent? || r.BadRequest? || r.ServerError?
      ensures r.BadRequest? <==> Some(key) != body.fitnessNumber
      ensures r.NoContent? <==>
                Some(key) == body.fitnessNumber
                && old(IndexOfId(members, body.id)).Some?
                && ValidMember(body)
                && KeyFreeExcept(old(members), body.fitnessNumber, old(IndexOfId(members, body.id)).value)
      ensures r.NoContent? ==>
                && members == old(members)[old(IndexOfId(members, body.id)).value := body]
                && subscriptions == old(subscriptions) && workouts == old(workouts)
                && nextId == old(nextId)
      ensures !r.NoContent? ==> unchanged(this)
    {
      if Some(key) != body.fitnessNumber {
        return BadRequest;
      }
      match IndexOfId(members, body.id) {
        case None =>
          // the update touches no row and the save throws
          r := ServerError;
        case Some(i) =>
          ReplaceConsistent(members, subscriptions, workouts, i, body);
          var saved := SaveChanges(members[i := body], subscriptions, workouts, nextId);
          r := if saved then NoContent else ServerError;
      }
    }

    /** DELETE: 404 if no Member holds the key; otherwise that Member is
        removed, together with every Subscription and Workout that points at
        it, and 204 is returned. */
    method DeleteMember(key: string) returns (r: Response<()>)
      requires Valid()
      modifies this
      ensures Valid()
      ensures r.NoContent? || r.NotFound?
      ensures r.NotFound? <==> KeyFreeExcept(old(members), Some(key), -1)
      ensures r.NotFound? ==> unchanged(this)
      ensures r.NoContent? ==>
                var i := old(IndexOfKey(members, Some(key))).value;
                && members == RemoveAt(old(members), i)
                && subscriptions == KeepUnowned(old(subscriptions), SubscriptionOwner, old(members)[i].id)
                && workouts == KeepUnowned(old(workouts), WorkoutOwner, old(members)[i].id)
                && nextId == old(nextId)
    {
      match IndexOfKey(members, Some(key)) {
        case None =>
          r := NotFound;
        case Some(i) =>
          var id := members[i].id;
          CascadeDeleteConsistent(members, subscriptions, workouts, i);
          var saved := SaveChanges(RemoveAt(members, i),
                                   KeepUnowned(subscriptions, SubscriptionOwner, id),
                                   KeepUnowned(workouts, WorkoutOwner, id), nextId);
          assert saved;
          r := NoContent;
      }
    }
  }

  /** A client of the store: after a successful create, looking the new
      Member up by its FitnessNumber returns exactly the created row. */
  method CreateThenGet(store: MemberStore, body: Member) returns (created: Response<Member>, got: Response<Member>)
    requires store.Valid()
    modifies store
    ensures store.Valid()
    ensures created.Created? ==> body.fitnessNumber.Some? && got == Ok(created.body)
  {
    created := store.PostMember(body);
    if created.Created? {
      AppendThenFind(old(store.members), created.body);
      got := store.GetMember(body.fitnessNumber.value);
    } else {
      got := NotFound;
    }
  }

  /** A client of the store: two creates with the same FitnessNumber, one
      after the other, never both succeed. */
  method CreateTwice(store: MemberStore, first: Member, second: Member) returns (r1: Response<Member>, r2: Response<Member>)
    requires store.Valid()
    requires first.fitnessNumber == second.fitnessNumber
    modifies store
    ensures store.Valid()
    ensures !(r1.Created? && r2.Created?)
    ensures r1.Created? ==> r2.BadRequest?
  {
    r1 := store.PostMember(first);
    if r1.Created? {
      assert store.members[|store.members| - 1] == r1.body;
    }
    r2 := store.PostMember(second);
  }

  /** A client of the store: once a Member is deleted, looking its
      FitnessNumber up returns 404. */
  method DeleteThenGet(store: MemberStore, key: string) returns (deleted: Response<()>, got: Response<Member>)
    requires store.Valid()
    modifies store
    ensures store.Valid()
    ensures got == NotFound
  {
    deleted := store.DeleteMember(key);
    if deleted.NoContent? {
      var i := IndexOfKey(old(store.members), Some(key)).value;
      RemoveThenFind(old(store.members), i);
    }
    got := store.GetMember(key);
  }
}

=== FILE: queries.dfy ===
/** The read side of the members API: paging with Skip/Take, substring search
    on FitnessNumber, and lookup of the first row with a given key or Id. */
module MemberQueries {
  import opened Sequences
  import opened FitnessSchema

  /** The largest value of a 32-bit signed integer (the type of page and pageSize). */
  const Int32Max := 0x7FFF_FFFF

  /** The arguments GetMembers is modelled for: page at least 1, a page size
      that is not negative, and an offset that does not overflow. */
  predicate PageArgs(page: int, pageSize: int)
  {
    1 <= page <= Int32Max && 0 <= pageSize <= Int32Max && (page - 1) * pageSize <= Int32Max
  }

  function Offset(page: int, pageSize: int): nat
    requires PageArgs(page, pageSize)
  {
    (page - 1) * pageSize
  }

  /** Skip(n): drop the first n rows, or all of them if there are fewer. */
  function Skip<T>(s: seq<T>, n: nat): (r: seq<T>)
    ensures |r| == if n < |s| then |s| - n else 0
    ensures forall k :: 0 <= k < |r| ==> r[k] == s[n + k]
  {
    if n < |s| then s[n..] else []
  }

  /** Take(n): the first n rows, or all of them if there are fewer. */
  function Take<T>(s: seq<T>, n: nat): (r: seq<T>)
    ensures |r| == Min(n, |s|)
    ensures r <= s
  {
    if n < |s| then s[..n] else s
  }

  /** One page of the table: Skip((page - 1) * pageSize).Take(pageSize). */
  function Page<T>(s: seq<T>, page: int, pageSize: int): (r: seq<T>)
    requires PageArgs(page, pageSize)
    ensures |r| <= pageSize
    ensures Offset(page, pageSize) >= |s| ==> r == []
    ensures r == s[Min(Offset(page, pageSize), |s|)..Min(Offset(page, pageSize) + pageSize, |s|)]
  {
    Take(Skip(s, Offset(page, pageSize)), pageSize)
  }

  /** Pages 1 to k, one after the other. */
  function PagesUpTo<T>(s: seq<T>, k: nat, pageSize: int): seq<T>
    requires k <= Int32Max && 0 <= pageSize && k * pageSize <= Int32Max
  {
    if k == 0 then []
    else
      assert (k - 1) * pageSize == k * pageSize - pageSize;
      PagesUpTo(s, k - 1, pageSize) + Page(s, k, pageSize)
  }

  /** Reading pages 1, 2, ..., k in turn yields the table's first k * pageSize
      rows in the store's order: no row is skipped and none is repeated. */
  lemma {:induction false} PagesUpToIsPrefix<T>(s: seq<T>, k: nat, pageSize: int)
    requires k <= Int32Max && 0 <= pageSize && k * pageSize <= Int32Max
    ensures PagesUpTo(s, k, pageSize) == s[..Min(k * pageSize, |s|)]
  {
    if k > 0 {
      assert (k - 1) * pageSize == k * pageSize - pageSize;
      PagesUpToIsPrefix(s, k - 1, pageSize);
      var lo := Min((k - 1) * pageSize, |s|);
      var hi := Min(k * pageSize, |s|);
      assert s[..lo] + s[lo..hi] == s[..hi];
    }
  }

  /** Every row of the table is on page i / pageSize + 1, at position i % pageSize. */
  lemma PageLocates<T>(s: seq<T>, pageSize: int, i: nat)
    requires 0 < pageSize <= Int32Max && i < |s| && i < Int32Max
    ensures PageArgs(i / pageSize + 1, pageSize)
    ensures i % pageSize < |Page(s, i / pageSize + 1, pageSize)|
    ensures Page(s, i / pageSize + 1, pageSize)[i % pageSize] == s[i]
  {
    var q, rem := i / pageSize, i % pageSize;
    DivideIndex(i, pageSize);
    assert (q + 1 - 1) * pageSize == q * pageSize;
    assert PageArgs(q + 1, pageSize);
    assert Offset(q + 1, pageSize) == i - rem;
  }

  lemma DivideIndex(i: nat, n: int)
    requires 0 < n
    ensures 0 <= i % n < n
    ensures (i / n) * n == i - i % n
    ensures 0 <= i / n <= i
  {
    var q := i / n;
    assert i == q * n + i % n;
    NoSmallerMultiple(q, n);
  }

  lemma NoSmallerMultiple(q: nat, n: int)
    requires 0 < n
    ensures q <= q * n
  {
  }

  /** String.Contains with ordinal comparison: frag occurs somewhere in s. */
  predicate Contains(s: string, frag: string)
    decreases |s|
  {
    frag <= s || (|s| > 0 && Contains(s[1..], frag))
  }

  /** frag occurs in s starting at position i. */
  ghost predicate OccursAt(s: string, frag: string, i: int)
  {
    0 <= i && i + |frag| <= |s| && s[i..i + |frag|] == frag
  }

  /** Contains finds an occurrence at any position, not only at the start. */
  lemma ContainsIffOccurs(s: string, frag: string)
    ensures Contains(s, frag) <==> exists i :: OccursAt(s, frag, i)
  {
    if Contains(s, frag) {
      var i := OccurrenceOf(s, frag);
    }
    if i :| OccursAt(s, frag, i) {
      ContainsOccurrence(s, frag, i);
    }
  }

  /** An occurrence at position i is found by Contains. */
  lemma {:induction false} ContainsOccurrence(s: string, frag: string, i: int)
    requires OccursAt(s, frag, i)
    ensures Contains(s, frag)
    decreases i
  {
    if i == 0 {
      assert s[..|frag|] == frag;
    } else {
      assert s[1..][i - 1..i - 1 + |frag|] == s[i..i + |frag|];
      ContainsOccurrence(s[1..], frag, i - 1);
    }
  }

  /** When Contains holds, frag occurs at some position i of s. */
  lemma {:induction false} OccurrenceOf(s: string, frag: string) returns (i: nat)
    requires Contains(s, frag)
    ensures OccursAt(s, frag, i)
    decreases |s|
  {
    if frag <= s {
      i := 0;
      assert s[..|frag|] == frag;
    } else {
      var k := OccurrenceOf(s[1..], frag);
      assert s[1..][k..k + |frag|] == s[k + 1..k + 1 + |frag|];
      i := k + 1;
    }
  }

  /** A fragment whose first character does not occur in s is not contained in s. */
  lemma {:induction false} MissingFirstCharacter(s: string, frag: string)
    requires frag != [] && frag[0] !in s
    ensures !Contains(s, frag)
    decreases |s|
  {
    if |s| > 0 {
      assert s[0] in s;
      assert forall c :: c in s[1..] ==> c in s;
      MissingFirstCharacter(s[1..], frag);
    }
  }

  /** The row's FitnessNumber contains frag; a null FitnessNumber matches nothing. */
  predicate Matches(m: Member, frag: string)
  {
    m.fitnessNumber.Some? && Contains(m.fitnessNumber.value, frag)
  }

  /** Where(m => m.FitnessNumber.Contains(frag)). */
  function Search(ms: seq<Member>, frag: string): (r: seq<Member>)
    ensures forall m :: m in r <==> m in ms && Matches(m, frag)
  {
    Filter(ms, m => Matches(m, frag))
  }

  /** Search keeps the store's order: searching a concatenation searches each part. */
  lemma SearchConcat(a: seq<Member>, b: seq<Member>, frag: string)
    ensures Search(a + b, frag) == Search(a, frag) + Search(b, frag)
  {
    FilterConcat(a, b, m => Matches(m, frag));
  }

  /** The first row whose FitnessNumber equals key
      (FirstOrDefault(m => m.FitnessNumber == key)). */
  function IndexOfKey(ms: seq<Member>, key: NString): (r: Option<nat>)
    ensures r.Some? ==> r.value < |ms| && ms[r.value].fitnessNumber == key
    ensures r.Some? ==> forall j :: 0 <= j < r.value ==> ms[j].fitnessNumber != key
    ensures r.None? <==> KeyFreeExcept(ms, key, -1)
  {
    FirstIndex(ms, (m: Member) => m.fitnessNumber == key)
  }

  /** Under the unique index, the row found by key is the only one holding it. */
  lemma IndexOfUniqueKey(ms: seq<Member>, i: nat)
    requires UniqueFitnessNumbers(ms) && i < |ms|
    ensures IndexOfKey(ms, ms[i].fitnessNumber) == Some(i)
  {
  }

  /** After a row with a fresh key is appended, looking that key up finds the
      new row. */
  lemma AppendThenFind(ms: seq<Member>, m: Member)
    requires IndexOfKey(ms, m.fitnessNumber).None?
    ensures IndexOfKey(ms + [m], m.fitnessNumber) == Some(|ms|)
  {
    var ms' := ms + [m];
    assert ms'[|ms|] == m;
    assert forall j :: 0 <= j < |ms| ==> ms'[j] == ms[j];
  }

  /** Under the unique index, once the row holding a key is removed, looking
      the key up finds nothing. */
  lemma RemoveThenFind(ms: seq<Member>, i: nat)
    requires UniqueFitnessNumbers(ms) && i < |ms|
    ensures IndexOfKey(RemoveAt(ms, i), ms[i].fitnessNumber).None?
  {
  }

  /** The row whose Id is id, if any: the row an update of an entity with
      that key touches. */
  function IndexOfId(ms: seq<Member>, id: int): (r: Option<nat>)
    ensures r.Some? ==> r.value < |ms| && ms[r.value].id == id
    ensures r.None? <==> !HasMember(ms, id)
  {
    FirstIndex(ms, (m: Member) => m.id == id)
  }

  /** Searching a single row finds it exactly when it matches. */
  lemma SearchSingle(m: Member, frag: string)
    ensures Search([m], frag) == if Matches(m, frag) then [m] else []
  {
  }

  /** Searching "N00" over rows numbered AN0012, BN0034 and CX0099 finds the
      first two, in order. */
  lemma SearchExample(a: Member, b: Member, c: Member)
    requires a.fitnessNumber == Some("AN0012")
    requires b.fitnessNumber == Some("BN0034")
    requires c.fitnessNumber == Some("CX0099")
    ensures Search([a, b, c], "N00") == [a, b]
  {
    ContainsOccurrence("AN0012", "N00", 1);
    SearchSingle(a, "N00");
    SearchExampleTail(b, c);
    assert [a, b, c] == [a] + [b, c];
    SearchConcat([a], [b, c], "N00");
  }

  lemma SearchExampleTail(b: Member, c: Member)
    requires b.fitnessNumber == Some("BN0034")
    requires c.fitnessNumber == Some("CX0099")
    ensures Search([b, c], "N00") == [b]
  {
    ContainsOccurrence("BN0034", "N00", 1);
    MissingFirstCharacter("CX0099", "N00");
    SearchSingle(b, "N00");
    SearchSingle(c, "N00");
    assert [b, c] == [b] + [c];
    SearchConcat([b], [c], "N00");
  }

  /** Page 2 of size 2 over five rows holds the third and fourth rows. */
  lemma PageExample<T>(s: seq<T>)
    requires |s| == 5
    ensures Page(s, 2, 2) == [s[2], s[3]]
  {
  }
}

=== FILE: schema.dfy ===
/** The entities of the fitness database and the constraints its model
    declares: required text columns with maximum lengths, generated primary
    keys, the unique index on FitnessNumber, and the required foreign keys
    from Subscription and Workout to Member with cascade delete. */
module FitnessSchema {
  import opened Sequences

  /** A .NET string reference: None stands for null. */
  type NString = Option<string>

  /** A datetime2 column, carried as opaque payload: nothing computes with it. */
  datatype DateTime = DateTime(ticks: int)

  /** The float and decimal columns (Height, CaloriesBurned, Price) are carried
      as `real` payload; the model does no arithmetic on them. */
  datatype Member = Member(
    id: int,
    birthDate: DateTime,
    firstName: NString,
    fitnessNumber: NString,
    height: real,
    lastName: NString,
    phoneNumber: NString)

  datatype Subscription = Subscription(
    id: int,
    description: NString,
    expiryDate: DateTime,
    memberId: int,
    price: real,
    startDate: DateTime)

  datatype Workout = Workout(
    id: int,
    caloriesBurned: real,
    durationMinutes: int,
    memberId: int,
    notes: NString,
    workoutDate: DateTime)

  const FirstNameMaxLength := 50
  const FitnessNumberMaxLength := 10
  const LastNameMaxLength := 50
  const PhoneNumberMaxLength := 15
  const DescriptionMaxLength := 100
  const NotesMaxLength := 200

  /** The length of s in UTF-16 code units, the unit nvarchar(n) counts: a
      character above U+FFFF is stored as a surrogate pair and counts twice. */
  function Utf16Length(s: string): (n: nat)
    ensures |s| <= n <= 2 * |s|
  {
    if s == [] then 0
    else (if s[0] as int < 0x1_0000 then 1 else 2) + Utf16Length(s[1..])
  }

  /** Text in the Basic Multilingual Plane takes one code unit per character. */
  lemma {:induction false} Utf16LengthBmp(s: string)
    requires forall i :: 0 <= i < |s| ==> s[i] as int < 0x1_0000
    ensures Utf16Length(s) == |s|
  {
    if s != [] {
      assert forall i :: 0 <= i < |s[1..]| ==> s[1..][i] == s[i + 1];
      Utf16LengthBmp(s[1..]);
    }
  }

  /** Text made only of characters above U+FFFF takes two code units per character. */
  lemma {:induction false} Utf16LengthAstral(s: string)
    requires forall i :: 0 <= i < |s| ==> s[i] as int >= 0x1_0000
    ensures Utf16Length(s) == 2 * |s|
  {
    if s != [] {
      assert forall i :: 0 <= i < |s[1..]| ==> s[1..][i] == s[i + 1];
      Utf16LengthAstral(s[1..]);
    }
  }

  /** A required nvarchar(maxLength) column: not null, at most maxLength UTF-16
      code units. */
  predicate RequiredText(t: NString, maxLength: nat)
  {
    t.Some? && Utf16Length(t.value) <= maxLength
  }

  /** A FirstName of 26 characters above U+FFFF is 52 code units long, which
      nvarchar(50) refuses, although it has fewer than 50 characters. */
  lemma WideFirstNameRefused(m: Member)
    requires m.firstName == Some(seq(26, _ => '\U{1F600}'))
    ensures |m.firstName.value| < FirstNameMaxLength
    ensures !ValidMember(m)
  {
    Utf16LengthAstral(m.firstName.value);
  }

  predicate ValidMember(m: Member)
  {
    && RequiredText(m.firstName, FirstNameMaxLength)
    && RequiredText(m.fitnessNumber, FitnessNumberMaxLength)
    && RequiredText(m.lastName, LastNameMaxLength)
    && RequiredText(m.phoneNumber, PhoneNumberMaxLength)
  }

  predicate ValidSubscription(s: Subscription)
  {
    RequiredText(s.description, DescriptionMaxLength)
  }

  predicate ValidWorkout(w: Workout)
  {
    RequiredText(w.notes, NotesMaxLength)
  }

  function MemberKey(m: Member): int { m.id }
  function SubscriptionKey(s: Subscription): int { s.id }
  function WorkoutKey(w: Workout): int { w.id }
  function SubscriptionOwner(s: Subscription): int { s.memberId }
  function WorkoutOwner(w: Workout): int { w.memberId }

  /** Primary key: no two rows of a table share a key. */
  predicate DistinctKeys<T>(rows: seq<T>, key: T -> int)
  {
    forall i, j :: 0 <= i < j < |rows| ==> key(rows[i]) != key(rows[j])
  }

  /** The unique index on FitnessNumber. */
  predicate UniqueFitnessNumbers(ms: seq<Member>)
  {
    forall i, j :: 0 <= i < j < |ms| ==> ms[i].fitnessNumber != ms[j].fitnessNumber
  }

  predicate HasMember(ms: seq<Member>, id: int)
  {
    exists i :: 0 <= i < |ms| && ms[i].id == id
  }

  /** A required foreign key: every row's owner is the Id of an existing Member. */
  predicate References<T>(rows: seq<T>, owner: T -> int, ms: seq<Member>)
  {
    forall i :: 0 <= i < |rows| ==> HasMember(ms, owner(rows[i]))
  }

  /** Every constraint of the model holds of the three tables. */
  predicate Consistent(ms: seq<Member>, ss: seq<Subscription>, ws: seq<Workout>)
  {
    && (forall i :: 0 <= i < |ms| ==> ValidMember(ms[i]))
    && (forall i :: 0 <= i < |ss| ==> ValidSubscription(ss[i]))
    && (forall i :: 0 <= i < |ws| ==> ValidWorkout(ws[i]))
    && DistinctKeys(ms, MemberKey)
    && DistinctKeys(ss, SubscriptionKey)
    && DistinctKeys(ws, WorkoutKey)
    && UniqueFitnessNumbers(ms)
    && References(ss, SubscriptionOwner, ms)
    && References(ws, WorkoutOwner, ms)
  }

  /** The rows a cascade delete of Member memberId leaves in place. */
  function KeepUnowned<T(!new)>(rows: seq<T>, owner: T -> int, memberId: int): (r: seq<T>)
    ensures forall x :: x in r <==> x in rows && owner(x) != memberId
  {
    Filter(rows, x => owner(x) != memberId)
  }

  /** The rows a cascade delete of Member memberId removes. */
  function OwnedBy<T(!new)>(rows: seq<T>, owner: T -> int, memberId: int): (r: seq<T>)
    ensures forall x :: x in r <==> x in rows && owner(x) == memberId
  {
    Filter(rows, x => owner(x) == memberId)
  }

  /** The cascade splits a table in two: what it keeps and what it removes make
      up the table exactly, with every row counted once. */
  lemma {:induction false} CascadePartition<T(!new)>(rows: seq<T>, owner: T -> int, memberId: int)
    ensures multiset(KeepUnowned(rows, owner, memberId)) + multiset(OwnedBy(rows, owner, memberId))
            == multiset(rows)
  {
    if rows != [] {
      CascadePartition(rows[1..], owner, memberId);
      assert rows == [rows[0]] + rows[1..];
    }
  }

  /** Filtering a table keeps its primary key distinct. */
  lemma {:induction false} FilterKeepsDistinct<T(!new)>(rows: seq<T>, key: T -> int, p: T -> bool)
    requires DistinctKeys(rows, key)
    ensures DistinctKeys(Filter(rows, p), key)
  {
    if rows != [] {
      var rest := Filter(rows[1..], p);
      assert DistinctKeys(rows[1..], key) by {
        forall i, j | 0 <= i < j < |rows[1..]|
          ensures key(rows[1..][i]) != key(rows[1..][j])
        {
          assert rows[1..][i] == rows[i + 1] && rows[1..][j] == rows[j + 1];
        }
      }
      FilterKeepsDistinct(rows[1..], key, p);
      if p(rows[0]) {
        forall j | 0 <= j < |rest| ensures key(rest[j]) != key(rows[0]) {
          assert rest[j] in rows[1..];
          var k :| 0 <= k < |rows[1..]| && rows[1..][k] == rest[j];
          assert rows[k + 1] == rest[j];
        }
      }
    }
  }

  /** The rows a cascade keeps still have distinct primary keys. */
  lemma KeepUnownedKeepsDistinct<T(!new)>(rows: seq<T>, key: T -> int, owner: T -> int, memberId: int)
    requires DistinctKeys(rows, key)
    ensures DistinctKeys(KeepUnowned(rows, owner, memberId), key)
  {
    FilterKeepsDistinct(rows, key, x => owner(x) != memberId);
  }

  /** Removing a Member and cascading the delete to the rows that point at it
      keeps the three tables consistent: no dangling foreign key remains. */
  lemma CascadeDeleteConsistent(ms: seq<Member>, ss: seq<Subscription>, ws: seq<Workout>, i: nat)
    requires Consistent(ms, ss, ws)
    requires i < |ms|
    ensures Consistent(RemoveAt(ms, i),
                       KeepUnowned(ss, SubscriptionOwner, ms[i].id),
                       KeepUnowned(ws, WorkoutOwner, ms[i].id))
  {
    var ms' := RemoveAt(ms, i);
    var ss' := KeepUnowned(ss, SubscriptionOwner, ms[i].id);
    var ws' := KeepUnowned(ws, WorkoutOwner, ms[i].id);
    KeepUnownedKeepsDistinct(ss, SubscriptionKey, SubscriptionOwner, ms[i].id);
    KeepUnownedKeepsDistinct(ws, WorkoutKey, WorkoutOwner, ms[i].id);
    forall k | 0 <= k < |ss'| ensures ValidSubscription(ss'[k]) {
      assert ss'[k] in ss;
    }
    forall k | 0 <= k < |ws'| ensures ValidWorkout(ws'[k]) {
      assert ws'[k] in ws;
    }
    CascadeKeepsReferences(ss, SubscriptionOwner, ms, i);
    CascadeKeepsReferences(ws, WorkoutOwner, ms, i);
  }

  /** After the cascade, every remaining row still points at a remaining Member. */
  lemma CascadeKeepsReferences<T(!new)>(rows: seq<T>, owner: T -> int, ms: seq<Member>, i: nat)
    requires References(rows, owner, ms)
    requires i < |ms|
    ensures References(KeepUnowned(rows, owner, ms[i].id), owner, RemoveAt(ms, i))
  {
    var kept := KeepUnowned(rows, owner, ms[i].id);
    var ms' := RemoveAt(ms, i);
    forall k | 0 <= k < |kept| ensures HasMember(ms', owner(kept[k])) {
      assert kept[k] in rows;
      var r :| 0 <= r < |rows| && rows[r] == kept[k];
      assert HasMember(ms, owner(rows[r]));
      var j :| 0 <= j < |ms| && ms[j].id == owner(kept[k]);
      assert j != i;
      if j < i {
        assert ms'[j] == ms[j];
      } else {
        assert ms'[j - 1] == ms[j];
      }
    }
  }

  /** Replacing the row that carries a given Id by a row with the same Id
      leaves every foreign key satisfied. */
  lemma ReplaceKeepsReferences<T>(rows: seq<T>, owner: T -> int, ms: seq<Member>, i: nat, m: Member)
    requires References(rows, owner, ms)
    requires i < |ms| && m.id == ms[i].id
    ensures References(rows, owner, ms[i := m])
  {
    forall k | 0 <= k < |rows| ensures HasMember(ms[i := m], owner(rows[k])) {
      assert HasMember(ms, owner(rows[k]));
      var j :| 0 <= j < |ms| && ms[j].id == owner(rows[k]);
      assert ms[i := m][j].id == ms[j].id;
    }
  }

  /** Appending a Member leaves every foreign key satisfied. */
  lemma AppendKeepsReferences<T>(rows: seq<T>, owner: T -> int, ms: seq<Member>, m: Member)
    requires References(rows, owner, ms)
    ensures References(rows, owner, ms + [m])
  {
    forall k | 0 <= k < |rows| ensures HasMember(ms + [m], owner(rows[k])) {
      assert HasMember(ms, owner(rows[k]));
      var j :| 0 <= j < |ms| && ms[j].id == owner(rows[k]);
      assert (ms + [m])[j] == ms[j];
    }
  }

  /** No Member other than the one at index except holds FitnessNumber key. */
  predicate KeyFreeExcept(ms: seq<Member>, key: NString, except: int)
  {
    forall j :: 0 <= j < |ms| && j != except ==> ms[j].fitnessNumber != key
  }

  /** Inserting a row whose Id is above every existing Id and whose
      FitnessNumber is not yet taken keeps the tables consistent exactly when
      the row meets the Member column constraints. */
  lemma InsertConsistent(ms: seq<Member>, ss: seq<Subscription>, ws: seq<Workout>, m: Member)
    requires Consistent(ms, ss, ws)
    requires forall j :: 0 <= j < |ms| ==> ms[j].id < m.id
    requires KeyFreeExcept(ms, m.fitnessNumber, -1)
    ensures Consistent(ms + [m], ss, ws) <==> ValidMember(m)
  {
    var ms' := ms + [m];
    assert ms'[|ms|] == m;
    if ValidMember(m) {
      AppendKeepsReferences(ss, SubscriptionOwner, ms, m);
      AppendKeepsReferences(ws, WorkoutOwner, ms, m);
      assert forall j :: 0 <= j < |ms| ==> ms'[j] == ms[j];
    }
  }

  /** Overwriting the row at index i with a row of the same Id keeps the
      tables consistent exactly when the new row meets the Member column
      constraints and its FitnessNumber is held by no other row. */
  lemma ReplaceConsistent(ms: seq<Member>, ss: seq<Subscription>, ws: seq<Workout>, i: nat, m: Member)
    requires Consistent(ms, ss, ws)
    requires i < |ms| && m.id == ms[i].id
    ensures Consistent(ms[i := m], ss, ws) <==> ValidMember(m) && KeyFreeExcept(ms, m.fitnessNumber, i)
  {
    var ms' := ms[i := m];
    if ValidMember(m) && KeyFreeExcept(ms, m.fitnessNumber, i) {
      ReplaceKeepsReferences(ss, SubscriptionOwner, ms, i, m);
      ReplaceKeepsReferences(ws, WorkoutOwner, ms, i, m);
      assert DistinctKeys(ms', MemberKey) by {
        forall a, b | 0 <= a < b < |ms'| ensures ms'[a].id != ms'[b].id {
          assert ms'[a].id == ms[a].id && ms'[b].id == ms[b].id;
        }
      }
    }
    if Consistent(ms', ss, ws) {
      assert ms'[i] == m;
      forall j | 0 <= j < |ms| && j != i ensures ms[j].fitnessNumber != m.fitnessNumber {
        assert ms'[j] == ms[j];
        if j < i {
          assert ms'[j].fitnessNumber != ms'[i].fitnessNumber;
        } else {
          assert ms'[i].fitnessNumber != ms'[j].fitnessNumber;
        }
      }
    }
  }
}

=== FILE: sequences.dfy ===
/** The sequence operators the member store relies on: the query operators
    Where (Filter) and FirstOrDefault (FirstIndex), and removal of one row. */
module Sequences {

  datatype Option<+T> = None | Some(value: T)

  function Min(a: int, b: int): int
  {
    if a <= b then a else b
  }

  /** The elements of s that satisfy p, in the order they occur in s. */
  function Filter<T(!new)>(s: seq<T>, p: T -> bool): (r: seq<T>)
    ensures |r| <= |s|
    ensures forall x :: x in r <==> x in s && p(x)
  {
    if s == [] then []
    else (if p(s[0]) then [s[0]] else []) + Filter(s[1..], p)
  }

  /** Filtering a concatenation filters each part: the filter keeps the order of s. */
  lemma {:induction false} FilterConcat<T(!new)>(a: seq<T>, b: seq<T>, p: T -> bool)
    ensures Filter(a + b, p) == Filter(a, p) + Filter(b, p)
  {
    if a == [] {
      assert a + b == b;
    } else {
      assert (a + b)[0] == a[0];
      assert (a + b)[1..] == a[1..] + b;
      FilterConcat(a[1..], b, p);
    }
  }

  /** The index of the first element of s that satisfies p, if there is one. */
  function FirstIndex<T>(s: seq<T>, p: T -> bool): (r: Option<nat>)
    ensures r.Some? ==> r.value < |s| && p(s[r.value])
    ensures r.Some? ==> forall j :: 0 <= j < r.value ==> !p(s[j])
    ensures r.None? <==> forall j :: 0 <= j < |s| ==> !p(s[j])
  {
    if s == [] then None
    else if p(s[0]) then Some(0)
    else match FirstIndex(s[1..], p)
      case None => None
      case Some(k) => Some(k + 1)
  }

  /** s without its element at index i; the others keep their relative order. */
  function RemoveAt<T>(s: seq<T>, i: nat): (r: seq<T>)
    requires i < |s|
    ensures |r| == |s| - 1
    ensures forall k :: 0 <= k < i ==> r[k] == s[k]
    ensures forall k :: i <= k < |r| ==> r[k] == s[k + 1]
  {
    s[..i] + s[i + 1..]
  }
}
